=== FILE: README.md ===
# Agent selector, inline rename and tier tables — a Dafny model

This project models the logic inside three files of a chat application.

- **The chat input's agent selector** (`cursor-style-agent-selector.tsx`). It takes the fetched agent list and the parent's `selectedAgentId`. From these it derives:
  - the effective agent: the selected one, else the default one;
  - the name on the trigger button;
  - which menu row carries the check mark;
  - whether the MCP tools control appears, and what its popover lists.

  It also models what choosing a row emits.
- **The thread header's inline rename** (`thread-site-header.tsx`). This is a pure transition system over `isEditing` and `editName`. Each handler (`startEditing`, `cancelEditing`, `saveNewName`, `handleKeyDown`, the input's `onChange`) returns the new state and the effects it emits, in order. The effects are the update call, a toast, the `onProjectRenamed` callback and the cache invalidation. The awaited `mutateAsync` is one atomic step whose outcome is an input: a truthy or falsy result, a rejection with an `Error`, or a rejection with anything else. A session layer runs events only while their control is rendered. In that layer a parent adopts every name reported through `onProjectRenamed`. Over that layer the model proves an invariant and a rename round trip.
- **The header's usage indicator.** This maps the usage snapshot to one of: hidden, "N runs remaining", "Upgrade for more messages" or "Monthly limit reached". It also says whether a click opens billing.
- **The backend tier tables** (`constants.py`). These are `MODEL_ACCESS_TIERS`, `SUBSCRIPTION_MESSAGE_LIMITS` and `MODEL_NAME_ALIASES`, written as Dafny constants with dictionary lookup. Lemmas state the invariants the comments imply.

Files: `wrappers.dfy` (Option), `seqs.dfy` (`Array.prototype.find`), `text.dfy` (trim, decimal numerals), `agent_selector.dfy`, `thread_header.dfy`, `usage_indicator.dfy`, `constants.dfy`.

Behaviours of the code worth knowing, which the model keeps:

- **Check mark on the top row.** `isUsingSuna` is false whenever a default agent exists. So with nothing selected and a default agent present, the top "Agent" row is not checked. No agent row is checked either, because a row is checked only when its id equals `selectedAgentId`. `NoSelectionWithDefaultScenario` and `StaleSelectionFallsBack` state this.
- **When save leaves editing.** `saveNewName` clears `isEditing` only after the awaited update settles. Save is one atomic step here, so only the final state is visible, and every save path ends with editing off.
- **The unchanged-name check.** It compares the untrimmed draft, and the untrimmed draft is what the update receives. So `" Foo"` against the project name `"Foo"` counts as a change and is sent with its leading space.
- **The buttons beside the input save first.** Pressing the check or the cross button takes focus from the input, whose `onBlur` runs `saveNewName`. A save that returns before the update call (blank draft, unchanged draft, missing id) closes the editor at once, so the button's own `onClick` never runs. A save that awaits the update leaves the editor open until it settles, so the `onClick` lands during the await. In either case the cross button does not discard a changed draft: it saves it, or it toasts when the project id is missing. Only Escape cancels without saving. `ButtonClickIsBlurSave`, `CrossButtonSaves` and the two cross-button scenarios state this for the atomic model.

## Model

| member | source | states |
|---|---|---|
| Seqs.FirstIndex | frontend/src/components/thread/chat-input/cursor-style-agent-selector.tsx:57-58 | the index returned is the first element satisfying the predicate; none is returned exactly when no element does |
| Seqs.Find | frontend/src/components/thread/chat-input/cursor-style-agent-selector.tsx:57-58 | `find` returns the first matching element, or nothing exactly when none matches |
| AgentSelector.AgentList | frontend/src/components/thread/chat-input/cursor-style-agent-selector.tsx:56 | a missing response gives the empty agent list |
| AgentSelector.SelectedAgent | frontend/src/components/thread/chat-input/cursor-style-agent-selector.tsx:57 | the selected agent is the first agent whose id equals `selectedAgentId`; there is none when no id matches, and always none when `selectedAgentId` is undefined |
| AgentSelector.DefaultAgent | frontend/src/components/thread/chat-input/cursor-style-agent-selector.tsx:58 | the default agent is the first agent flagged `is_default`, and exists exactly when some agent is |
| AgentSelector.DisplayName | frontend/src/components/thread/chat-input/cursor-style-agent-selector.tsx:62 | the button label is never empty and is either "Agent" or the name of a fetched agent |
| AgentSelector.HasAgentMcpTools | frontend/src/components/thread/chat-input/cursor-style-agent-selector.tsx:31-38 | `hasAgentMCPTools` is false for an absent agent; it holds exactly when the popover would list at least one server, and exactly when "No MCP tools configured" would not be shown |
| AgentSelector.CurrentAgent | frontend/src/components/thread/chat-input/cursor-style-agent-selector.tsx:60 | the effective agent is a fetched agent, and is absent exactly when no agent carries the selected id and none is default |
| AgentSelector.ShowToolsIcon | frontend/src/components/thread/chat-input/cursor-style-agent-selector.tsx:63 | the tools control is shown exactly when the effective agent would not get "No MCP tools configured", and then that agent is a fetched one |
| AgentSelector.EffectiveAgentRule | frontend/src/components/thread/chat-input/cursor-style-agent-selector.tsx:57-60 | the effective agent is the first agent carrying the selected id; if there is none, the first default agent; it is absent exactly when neither exists |
| AgentSelector.DisplayNameRule | frontend/src/components/thread/chat-input/cursor-style-agent-selector.tsx:62 | the label is the selected agent's name if that is non-empty, else the default agent's name if that is non-empty, else "Agent" |
| AgentSelector.IsUsingSuna | frontend/src/components/thread/chat-input/cursor-style-agent-selector.tsx:59 | the top row is checked exactly when no agent carries the selected id and no agent is default; any default agent suppresses the check |
| AgentSelector.CheckMarksExclusive | frontend/src/components/thread/chat-input/cursor-style-agent-selector.tsx:153-155 | an agent row's check mark and the top row's check mark are never shown together |
| AgentSelector.ServerRows | frontend/src/components/thread/chat-input/cursor-style-agent-selector.tsx:201-240 | a popover section lists every server of a present, non-empty list, in order, by name; custom rows carry a type badge showing the server's type; a tool-count badge appears exactly when `enabledTools` is non-empty, and shows its length |
| AgentSelector.ToolsPopoverView | frontend/src/components/thread/chat-input/cursor-style-agent-selector.tsx:178-246 | the tools popover exists exactly when the effective agent has tools; when it does, it lists at least one server and never says "No MCP tools configured" |
| AgentSelector.SeparatorRule | frontend/src/components/thread/chat-input/cursor-style-agent-selector.tsx:124-126 | a missing response shows no separator; the separator appears exactly when the response holds a non-empty agent list |
| AgentSelector.SelectionEmitsOnce | frontend/src/components/thread/chat-input/cursor-style-agent-selector.tsx:70-73 | clearing emits exactly `onAgentSelect(undefined)`, choosing a row emits exactly that agent's id; both close the menu and leave the tools popover flag unchanged |
| AgentSelector.Step | frontend/src/components/thread/chat-input/cursor-style-agent-selector.tsx:65-179 | every handler emits at most one output, and only clearing or choosing a row calls `onAgentSelect`; the tools popover flag changes only through the popover's own open-change while the tools control is rendered; only the dropdown's own open-change opens the menu |
| AgentSelector.ChooseThenFeedBack | frontend/src/components/thread/chat-input/cursor-style-agent-selector.tsx:133-136 | once the parent passes the emitted id back, the chosen row is checked, the top row is not, and the effective agent carries that id (with distinct ids it is the chosen agent) |
| AgentSelector.ClearThenFeedBack | frontend/src/components/thread/chat-input/cursor-style-agent-selector.tsx:70-73 | once the parent passes `undefined` back, no agent row is checked, the effective agent is the default one, and the top row is checked exactly when there is no default agent |
| AgentSelector.StaleSelectionFallsBack | frontend/src/components/thread/chat-input/cursor-style-agent-selector.tsx:57-62 | a selected id naming no fetched agent falls back to the default agent's name and record, with no check mark anywhere |
| AgentSelector.NoSelectionWithDefaultScenario | frontend/src/components/thread/chat-input/cursor-style-agent-selector.tsx:59-62 | with "Writer" and default "Researcher" and nothing selected, the label is "Researcher" and no row is checked |
| AgentSelector.ExplicitSelectionScenario | frontend/src/components/thread/chat-input/cursor-style-agent-selector.tsx:153-155 | with "a1" selected, the label is "Writer", its row is checked, and neither the default agent's row nor the top row is |
| Text.TrimStart | frontend/src/components/thread/thread-site-header.tsx:81 | removes exactly the leading whitespace: what is dropped is whitespace, and what is kept is a suffix that does not start with whitespace |
| Text.TrimEnd | frontend/src/components/thread/thread-site-header.tsx:81 | removes exactly the trailing whitespace: what is dropped is whitespace, and what is kept is a prefix that does not end with whitespace |
| Text.Trim | frontend/src/components/thread/thread-site-header.tsx:81 | the trimmed draft is empty exactly when the draft is all whitespace; otherwise it starts and ends with non-whitespace |
| ThreadHeader.SaveNewName | frontend/src/components/thread/thread-site-header.tsx:80-116 | every save path ends with editing off |
| ThreadHeader.FailureMessage | frontend/src/components/thread/thread-site-header.tsx:103-108 | a toast message exists exactly when the update did not return a truthy result |
| ThreadHeader.StartEditing | frontend/src/components/thread/thread-site-header.tsx:66-73 | whatever the state before, starting reseeds the draft as on mount and enters editing, emitting nothing |
| ThreadHeader.CancelEditing | frontend/src/components/thread/thread-site-header.tsx:75-78 | whatever was typed, cancelling returns to the state on mount and emits nothing |
| ThreadHeader.HandleKeyDown | frontend/src/components/thread/thread-site-header.tsx:118-124 | Enter runs save; Escape returns to the state on mount and emits nothing; any other key changes nothing and emits nothing |
| ThreadHeader.SaveBlankDraft | frontend/src/components/thread/thread-site-header.tsx:81-85 | a whitespace-only draft resets the draft, clears editing, and emits no update call and no toast |
| ThreadHeader.SaveUnchangedDraft | frontend/src/components/thread/thread-site-header.tsx:87 | a draft equal to the project name emits nothing (no update, no rename, no toast) and clears editing |
| ThreadHeader.SaveMissingProjectId | frontend/src/components/thread/thread-site-header.tsx:89-94 | a changed draft with an empty project id emits exactly the toast "Cannot rename: Project ID is missing", resets the draft and makes no update call |
| ThreadHeader.SaveSucceeds | frontend/src/components/thread/thread-site-header.tsx:96-102 | a truthy update: one update call with the project id and the untrimmed draft, then `onProjectRenamed(draft)` when passed, then one invalidation of that project, and no toast |
| ThreadHeader.SaveFails | frontend/src/components/thread/thread-site-header.tsx:103-112 | a falsy result or a rejection: the update call, then exactly one toast ("Failed to update project", the Error's message, or "Failed to rename project"), with the draft reset and nothing renamed or invalidated |
| ThreadHeader.OutcomeMattersOnlyAfterCall | frontend/src/components/thread/thread-site-header.tsx:81-96 | a save that never reaches the update call does not depend on how an update would have settled |
| ThreadHeader.SaveLeavesAdoptedName | frontend/src/components/thread/thread-site-header.tsx:80-116 | after any save, the draft is the name a parent holds once it has adopted every reported rename |
| ThreadHeader.RunKeepsDraft | frontend/src/components/thread/thread-site-header.tsx:66-124 | over any run of rendered-control events, whenever editing is off the draft equals the committed project name |
| ThreadHeader.TypingOnlyChangesDraft | frontend/src/components/thread/thread-site-header.tsx:150 | while editing, typing only replaces the draft with the last text typed and emits nothing |
| ThreadHeader.TypingNeedsEditing | frontend/src/components/thread/thread-site-header.tsx:145-150 | while not editing, typing events (no input rendered) change nothing |
| ThreadHeader.TitleNeedsRealName | frontend/src/components/thread/thread-site-header.tsx:173-182 | while the project name is missing or the placeholder "Project", the title is a skeleton and clicking it changes nothing and emits nothing |
| ThreadHeader.TitleStartsEditing | frontend/src/components/thread/thread-site-header.tsx:173-182 | with a real name shown, clicking the title enters editing with the draft reseeded to the name and emits nothing |
| ThreadHeader.CancelUndoesEditing | frontend/src/components/thread/thread-site-header.tsx:118-124 | start, any typing, then Escape returns the session to exactly where it was and emits nothing |
| ThreadHeader.BlurIsSave | frontend/src/components/thread/thread-site-header.tsx:152 | while editing, the input losing focus runs `saveNewName`, and the parent adopts any rename it reports |
| ThreadHeader.ButtonClickIsBlurSave | frontend/src/components/thread/thread-site-header.tsx:147-171 | in the atomic model, a press on the check or cross button does exactly what the input's blur does, because the blur's save closes the editor before the button's `onClick` could run |
| ThreadHeader.CrossButtonSaves | frontend/src/components/thread/thread-site-header.tsx:147-171 | in the atomic model, while editing, the cross button emits exactly what `saveNewName` emits and leaves the draft the save left |
| ThreadHeader.CrossButtonRenamesScenario | frontend/src/components/thread/thread-site-header.tsx:152-171 | in the atomic model, the cross button on the changed draft "New" of project "Old" with id "p1" and a truthy update renames the project: one update call, the rename, one invalidation, draft "New" |
| ThreadHeader.CrossButtonMissingIdScenario | frontend/src/components/thread/thread-site-header.tsx:152-171 | the cross button on a changed draft without a project id emits the missing-id toast |
| ThreadHeader.RenameRoundTrip | frontend/src/components/thread/thread-site-header.tsx:66-124 | click the title, type a new non-blank name, press Enter with a succeeding update: the committed name becomes the new name, editing is off, and the effects are exactly one update call, one rename callback and one invalidation of the project |
| Text.NatToDecimal | frontend/src/components/thread/thread-site-header.tsx:207 | the count's numeral is a non-empty string of digits with no leading zero |
| Text.DecimalRoundTrip | frontend/src/components/thread/thread-site-header.tsx:207 | reading the rendered numeral back gives the count |
| Text.IntToDecimal | frontend/src/components/thread/thread-site-header.tsx:207 | the rendered count is its shortest numeral, as `String(n)` writes it: digits with no leading zero (other than "0") for a non-negative count, a minus sign and such digits for a negative one; it reads back as the count |
| Text.IntToDecimalInjective | frontend/src/components/thread/thread-site-header.tsx:207 | distinct counts render as distinct numerals |
| UsageIndicator.LabelText | frontend/src/components/thread/thread-site-header.tsx:203-217 | the remaining-runs caption is the count's shortest numeral (no leading zero, a minus sign when negative) followed by " runs remaining"; the other two captions are "Upgrade for more messages" and "Monthly limit reached" |
| UsageIndicator.IndicatorFor | frontend/src/components/thread/thread-site-header.tsx:195-217 | hidden exactly while loading; otherwise it shows the count iff messages are left, else "Upgrade for more messages" iff the user is free and "Monthly limit reached" otherwise; clickable iff an upgrade should be shown |
| UsageIndicator.Click | frontend/src/components/thread/thread-site-header.tsx:199-201 | a click opens billing exactly when the snapshot is loaded and asks for an upgrade, never closes an open dialog, and otherwise leaves it as it was |
| UsageIndicator.ClickIdempotent | frontend/src/components/thread/thread-site-header.tsx:62-64 | a second click changes nothing more than the first |
| UsageIndicator.LabelTextInjective | frontend/src/components/thread/thread-site-header.tsx:203-217 | distinct captions render distinct text, so the text tells the case and the count |
| Constants.Lookup | backend/utils/constants.py:2-77 | a lookup finds a value exactly when the key is in the table, and it is the table's value |
| Constants.TiersNest | backend/utils/constants.py:2-29 | free's list is a prefix of pro_75's, which is a prefix of admin's, so free ⊆ pro_75 ⊆ admin |
| Constants.AdminExtras | backend/utils/constants.py:19-29 | admin grants exactly "openai/o3" and "openai/gpt-4.1" beyond pro_75 |
| Constants.LimitsMatchTiers | backend/utils/constants.py:33-37 | both tables have the same three tiers and the monthly limits rise strictly: free < pro_75 < admin |
| Constants.TierListsDistinct | backend/utils/constants.py:3-29 | no tier lists a model twice |
| Constants.O3Aliases | backend/utils/constants.py:49-64 | "o3", "openrouter/openai/o3" and "openai/o3" all resolve to "openai/o3" |
| Constants.SonnetFourAliases | backend/utils/constants.py:42-44 | "sonnet-4" and "claude-sonnet-4" resolve to the same full model, one that pro_75 grants |
| Constants.Resolve | backend/utils/constants.py:38-77 | an alias resolves to its table entry, and a resolved name that is itself a key maps to itself; a name that is not a key stands for itself, which is how callers read the table (`get(name, name)`), not part of the table |
| Constants.ResolveIdempotent | backend/utils/constants.py:65 | resolving a resolved name changes nothing, because every alias target is either not an alias or maps to itself |

## Left out

- All JSX rendering is left out: class names, icons, tooltips, badges' styling, and the mobile and desktop layouts. The only rendering facts kept are which controls exist (and so which events can fire) and what text they say.
- The `disabled` prop of the selector is left out. It disables the two trigger buttons, which stops the menu and the tools popover from opening. `Step` does not model whether the menu is open before a row is chosen (see below), so this gating is not modelled either.
- The data fetching hooks are replaced by inputs: `useAgents` (its limit of 100 and name ordering are whatever list is supplied), `useUpdateProject`, `useQueryClient`, `useUsageIndicator` and `useSidebar`.
- "Agent Playground" closes the menu and emits `Navigate("/agents")`. The router itself is not part of this model.
- The deferred focus and select after `startEditing`, `console.error`, and the share and billing dialogs' contents are side effects on foreign components. The model records only that a click opens billing.
- Async interleaving is left out: overlapping renames, and events that land while a save's update is in flight. Each save is one atomic step with a given outcome. So the model does not show a button's `onClick` landing during the blur's awaited update. With the check button, that would be a second update call. With the cross button, it would reset the draft before the rename arrives.
- ThreadHeader.ButtonClickIsBlurSave: holds only with each save atomic. When the blur's save awaits the update, the code leaves the editor open, so the button's `onClick` runs during the await. The check button then runs `saveNewName` a second time, giving a second update call, rename and invalidation. The cross button runs `cancelEditing`, which resets the draft to the old name.
- ThreadHeader.CrossButtonSaves: holds only with each save atomic. On the update path the code's cross `onClick` runs `cancelEditing` during the await, so the draft ends at the old name, not at the draft the save left. The emitted effects are the same.
- ThreadHeader.CrossButtonRenamesScenario: holds only with each save atomic. The code emits the same update call, rename and invalidation, but its `cancelEditing` lands during the await and leaves the draft at "Old", while the parent adopts "New".
- Constants.Resolve: the fallback for a name that is not in `MODEL_NAME_ALIASES` is the model's reading of how callers use the table (`MODEL_NAME_ALIASES.get(name, name)`). The file holds only the table, and the callers are not part of this model.
- ThreadHeader.SaveNewName: an `onProjectRenamed` callback that throws is not modelled. In the code it runs inside the `try`, so the `catch` would toast its message after the rename was reported, reset the draft and skip the invalidation. The model treats the parent's callback as returning normally.
- Text.Trim: removes ASCII whitespace only (space, tab, line feed, vertical tab, form feed, carriage return). JavaScript's `trim` also removes Unicode spaces and line terminators, and modelling Unicode classes adds nothing to the rename logic. The input's `maxLength={50}` is enforced by the browser and is not modelled.
- Text.IntToDecimal: renders `messagesLeft` as an integer. JavaScript numbers that are fractional, huge or not a number render differently.
- Menu rows are modelled as firing whenever chosen. The handlers do not check that the menu is open; only the widget library ensures it.
- ThreadHeader.RunKeepsDraft: holds for a parent that passes `onProjectRenamed` and adopts the reported name. Without a handler, a successful save leaves the draft at the new name while the project name stays old. The session also never changes `projectName` from outside. An outside change, such as the placeholder "Project" being replaced by the loaded name, leaves the hidden draft stale until the next start. `startEditing` then resets it.
- The header's file-browser and side-panel buttons only call parent callbacks, so they are left out. The share button sets the header's own `showShareModal` flag, which only opens the share dialog. That dialog is a foreign component, so the flag is left out too. The mobile sidebar button is left out for the same reason.

=== FILE: agent_selector.dfy ===
/**
 * The agent selector of the chat input: which agent is in effect, what the
 * trigger button says, which menu row carries the check mark, when the MCP
 * tools control appears and what it lists, and what choosing a row emits.
 * The fetched agent list and the parent's `selectedAgentId` are inputs.
 */
module AgentSelector {
  import opened Wrappers
  import opened Seqs

  /** One MCP server attached to an agent (`configured_mcps` / `custom_mcps` entries). */
  datatype McpServer = McpServer(name: string, kind: string, enabledTools: Option<seq<string>>)

  /** An agent record as the agents query returns it. */
  datatype Agent = Agent(
    agentId: string,
    name: string,
    avatar: Option<string>,
    description: Option<string>,
    isDefault: bool,
    configuredMcps: Option<seq<McpServer>>,
    customMcps: Option<seq<McpServer>>)

  /** The agents query's payload; its `agents` field may be missing. */
  datatype AgentsResponse = AgentsResponse(agents: Option<seq<Agent>>)

  /** A list that is present and has at least one entry (truthy and `length > 0`). */
  predicate IsPresentAndNonEmpty<T>(xs: Option<seq<T>>) {
    xs.Some? && |xs.value| > 0
  }

  /** `agent?.configured_mcps` */
  function ConfiguredOf(agent: Option<Agent>): Option<seq<McpServer>> {
    if agent.Some? then agent.value.configuredMcps else None
  }

  /** `agent?.custom_mcps` */
  function CustomOf(agent: Option<Agent>): Option<seq<McpServer>> {
    if agent.Some? then agent.value.customMcps else None
  }

  /**
   * `hasAgentMCPTools`: an absent agent has none; otherwise either list must be non-empty.
   * Having tools, the popover listing at least one server, and the absence of
   * "No MCP tools configured" are one condition seen three ways.
   */
  function HasAgentMcpTools(agent: Option<Agent>): (b: bool)
    ensures b ==> agent.Some?
    ensures b <==> !NoToolsMessage(agent)
    ensures b <==> |ServerRows(ConfiguredOf(agent), false)| + |ServerRows(CustomOf(agent), true)| > 0
  {
    if agent.None? then false
    else IsPresentAndNonEmpty(agent.value.configuredMcps) || IsPresentAndNonEmpty(agent.value.customMcps)
  }

  /** `agentsResponse?.agents || []` */
  function AgentList(response: Option<AgentsResponse>): (agents: seq<Agent>)
    ensures response.None? ==> agents == []
  {
    if response.Some? && response.value.agents.Some? then response.value.agents.value else []
  }

  // ---------------------------------------------------------------------------
  // Derived values
  // ---------------------------------------------------------------------------

  /** `selectedAgentId === agent.agent_id`: an absent selection matches no agent. */
  predicate AgentRowChecked(selectedAgentId: Option<string>, agent: Agent) {
    selectedAgentId == Some(agent.agentId)
  }

  function SelectionMatcher(selectedAgentId: Option<string>): Agent -> bool {
    a => AgentRowChecked(selectedAgentId, a)
  }

  predicate IsDefaultAgent(agent: Agent) {
    agent.isDefault
  }

  /** `i` is the first agent whose id is the selected one. */
  ghost predicate FirstSelected(agents: seq<Agent>, selectedAgentId: Option<string>, i: int) {
    IsFirstMatch(agents, SelectionMatcher(selectedAgentId), i)
  }

  /** `i` is the first agent flagged default. */
  ghost predicate FirstDefault(agents: seq<Agent>, i: int) {
    IsFirstMatch(agents, IsDefaultAgent, i)
  }

  ghost predicate NoneSelected(agents: seq<Agent>, selectedAgentId: Option<string>) {
    NoMatch(agents, SelectionMatcher(selectedAgentId))
  }

  ghost predicate NoDefault(agents: seq<Agent>) {
    NoMatch(agents, IsDefaultAgent)
  }

  /** `agents.find(a => a.agent_id === selectedAgentId)` */
  function SelectedAgent(agents: seq<Agent>, selectedAgentId: Option<string>): (r: Option<Agent>)
    ensures r.None? <==> NoneSelected(agents, selectedAgentId)
    ensures r.Some? ==> exists i :: FirstSelected(agents, selectedAgentId, i) && r.value == agents[i]
    ensures selectedAgentId.None? ==> r.None?
  {
    Find(agents, SelectionMatcher(selectedAgentId))
  }

  /** `agents.find(a => a.is_default)` */
  function DefaultAgent(agents: seq<Agent>): (r: Option<Agent>)
    ensures r.None? <==> NoDefault(agents)
    ensures r.Some? ==> exists i :: FirstDefault(agents, i) && r.value == agents[i]
  {
    Find(agents, IsDefaultAgent)
  }

  /** `isUsingSuna`: the top "Agent" row is checked exactly when no agent carries the selected id and none is flagged default. */
  function IsUsingSuna(agents: seq<Agent>, selectedAgentId: Option<string>): (b: bool)
    ensures b <==> NoneSelected(agents, selectedAgentId) && NoDefault(agents)
    ensures forall i :: 0 <= i < |agents| && agents[i].isDefault ==> !b
  {
    SelectedAgent(agents, selectedAgentId).None? && DefaultAgent(agents).None?
  }

  /** `currentAgent = selectedAgent || defaultAgent`: a fetched agent, absent exactly when none is selected and none is default. */
  function CurrentAgent(agents: seq<Agent>, selectedAgentId: Option<string>): (r: Option<Agent>)
    ensures r.None? <==> NoneSelected(agents, selectedAgentId) && NoDefault(agents)
    ensures r.Some? ==> r.value in agents
  {
    var selected := SelectedAgent(agents, selectedAgentId);
    if selected.Some? then selected else DefaultAgent(agents)
  }

  /** `selectedAgent?.name || defaultAgent?.name || 'Agent'`: an empty name is falsy and falls through. */
  function DisplayName(agents: seq<Agent>, selectedAgentId: Option<string>): (r: string)
    ensures |r| > 0
    ensures r == "Agent" || exists i :: 0 <= i < |agents| && agents[i].name == r
  {
    var selected := SelectedAgent(agents, selectedAgentId);
    var default := DefaultAgent(agents);
    if selected.Some? && selected.value.name != "" then selected.value.name
    else if default.Some? && default.value.name != "" then default.value.name
    else "Agent"
  }

  /** `showToolsIcon = currentAgent && hasAgentMCPTools(currentAgent)`: shown exactly when the popover would not say "No MCP tools configured", and then for a fetched agent. */
  function ShowToolsIcon(agents: seq<Agent>, selectedAgentId: Option<string>): (b: bool)
    ensures b <==> !NoToolsMessage(CurrentAgent(agents, selectedAgentId))
    ensures b ==> CurrentAgent(agents, selectedAgentId).Some? && CurrentAgent(agents, selectedAgentId).value in agents
  {
    var current := CurrentAgent(agents, selectedAgentId);
    current.Some? && HasAgentMcpTools(current)
  }

  /** `agents.length > 0`: the separator under the top row. */
  predicate SeparatorShown(agents: seq<Agent>) {
    |agents| > 0
  }

  // ---------------------------------------------------------------------------
  // The MCP tools popover
  // ---------------------------------------------------------------------------

  /** One line of the popover: server name, its type badge (custom servers only), its tool-count badge. */
  datatype ToolRow = ToolRow(name: string, kind: Option<string>, toolCount: Option<nat>)

  /** The popover's two sections and whether it says "No MCP tools configured". */
  datatype ToolsPopover = ToolsPopover(configured: seq<ToolRow>, custom: seq<ToolRow>, noToolsMessage: bool)

  /** The "N tools" badge appears only when `enabledTools` is present and non-empty. */
  function ToolCountBadge(server: McpServer): Option<nat> {
    if IsPresentAndNonEmpty(server.enabledTools) then Some(|server.enabledTools.value|) else None
  }

  /** The rows of one section; the section is not rendered unless its list is present and non-empty. */
  function ServerRows(servers: Option<seq<McpServer>>, showKind: bool): (rows: seq<ToolRow>)
    ensures IsPresentAndNonEmpty(servers) ==> |rows| == |servers.value|
    ensures !IsPresentAndNonEmpty(servers) ==> rows == []
    ensures forall i :: 0 <= i < |rows| ==>
              && rows[i].name == servers.value[i].name
              && (rows[i].kind.Some? <==> showKind)
              && (showKind ==> rows[i].kind == Some(servers.value[i].kind))
              && (rows[i].toolCount.Some? <==> IsPresentAndNonEmpty(servers.value[i].enabledTools))
              && (rows[i].toolCount.Some? ==> rows[i].toolCount.value == |servers.value[i].enabledTools.value| > 0)
  {
    if IsPresentAndNonEmpty(servers) then
      var list := servers.value;
      seq(|list|, i requires 0 <= i < |list| =>
        ToolRow(list[i].name, if showKind then Some(list[i].kind) else None, ToolCountBadge(list[i])))
    else []
  }

  /** The "No MCP tools configured" condition, written over `currentAgent?.…` as the markup does. */
  predicate NoToolsMessage(agent: Option<Agent>) {
    && !IsPresentAndNonEmpty(ConfiguredOf(agent))
    && !IsPresentAndNonEmpty(CustomOf(agent))
  }

  /** The popover, which exists exactly when the effective agent has tools; it then lists at least one server and never says "No MCP tools configured". */
  function ToolsPopoverView(agents: seq<Agent>, selectedAgentId: Option<string>): (r: Option<ToolsPopover>)
    ensures r.Some? <==> HasAgentMcpTools(CurrentAgent(agents, selectedAgentId))
    ensures r.Some? ==> !r.value.noToolsMessage && |r.value.configured| + |r.value.custom| > 0
    ensures r.Some? ==>
              && r.value.configured == ServerRows(ConfiguredOf(CurrentAgent(agents, selectedAgentId)), false)
              && r.value.custom == ServerRows(CustomOf(CurrentAgent(agents, selectedAgentId)), true)
  {
    if ShowToolsIcon(agents, selectedAgentId) then
      var current := CurrentAgent(agents, selectedAgentId);
      Some(ToolsPopover(
        ServerRows(ConfiguredOf(current), false),
        ServerRows(CustomOf(current), true),
        NoToolsMessage(current)))
    else None
  }

  // ---------------------------------------------------------------------------
  // Events
  // ---------------------------------------------------------------------------

  /** The selector's own state: the dropdown menu and the tools popover. */
  datatype MenuState = MenuState(open: bool, toolsOpen: bool)

  datatype SelectorEvent =
    | MenuOpenChange(open: bool)    // the dropdown's onOpenChange
    | ToolsOpenChange(open: bool)   // the popover's onOpenChange
    | ClearSelection                // the top "Agent" row
    | ChooseAgent(index: nat)       // the row of agents[index]
    | CreateAgent                   // the "Agent Playground" row

  /** What the selector hands to the outside world. */
  datatype Emitted = AgentSelected(agentId: Option<string>) | Navigate(route: string)

  datatype SelectorStep = SelectorStep(state: MenuState, emitted: seq<Emitted>)

  const InitialMenuState := MenuState(false, false)

  /**
   * One handler run. Events aimed at a control that is not rendered change nothing.
   * Every event emits at most one output, and only the clear and choose rows report a
   * selection; the tools flag moves only through its own control while that control is
   * rendered; only the menu's own open-change opens the menu.
   */
  function Step(agents: seq<Agent>, selectedAgentId: Option<string>, s: MenuState, ev: SelectorEvent): (r: SelectorStep)
    ensures |r.emitted| <= 1
    ensures forall out :: out in r.emitted && out.AgentSelected? ==> ev.ClearSelection? || ev.ChooseAgent?
    ensures r.state.toolsOpen != s.toolsOpen ==> ev.ToolsOpenChange? && ShowToolsIcon(agents, selectedAgentId)
    ensures r.state.open && !s.open ==> ev.MenuOpenChange?
  {
    match ev
    case MenuOpenChange(open) => SelectorStep(s.(open := open), [])
    case ToolsOpenChange(open) =>
      if ShowToolsIcon(agents, selectedAgentId) then SelectorStep(s.(toolsOpen := open), [])
      else SelectorStep(s, [])
    case ClearSelection => SelectorStep(s.(open := false), [AgentSelected(None)])
    case ChooseAgent(i) =>
      if i < |agents| then SelectorStep(s.(open := false), [AgentSelected(Some(agents[i].agentId))])
      else SelectorStep(s, [])
    case CreateAgent => SelectorStep(s.(open := false), [Navigate("/agents")])
  }

  // ---------------------------------------------------------------------------
  // Properties
  // ---------------------------------------------------------------------------

  /** The effective agent is the first one carrying the selected id, else the first default one, else none. */
  lemma EffectiveAgentRule(agents: seq<Agent>, selectedAgentId: Option<string>)
    ensures forall i :: FirstSelected(agents, selectedAgentId, i) ==>
              CurrentAgent(agents, selectedAgentId) == Some(agents[i])
    ensures forall i :: NoneSelected(agents, selectedAgentId) && FirstDefault(agents, i) ==>
              CurrentAgent(agents, selectedAgentId) == Some(agents[i])
    ensures CurrentAgent(agents, selectedAgentId).None? <==>
              NoneSelected(agents, selectedAgentId) && NoDefault(agents)
  {
    forall i | FirstSelected(agents, selectedAgentId, i)
      ensures CurrentAgent(agents, selectedAgentId) == Some(agents[i])
    {
      var k :| FirstSelected(agents, selectedAgentId, k) && SelectedAgent(agents, selectedAgentId).value == agents[k];
      FirstSelectedUnique(agents, selectedAgentId, i, k);
    }
    forall i | NoneSelected(agents, selectedAgentId) && FirstDefault(agents, i)
      ensures CurrentAgent(agents, selectedAgentId) == Some(agents[i])
    {
      var k :| FirstDefault(agents, k) && DefaultAgent(agents).value == agents[k];
      FirstDefaultUnique(agents, i, k);
    }
  }

  lemma FirstSelectedUnique(agents: seq<Agent>, selectedAgentId: Option<string>, i: int, k: int)
    requires FirstSelected(agents, selectedAgentId, i) && FirstSelected(agents, selectedAgentId, k)
    ensures i == k
  {
  }

  lemma FirstDefaultUnique(agents: seq<Agent>, i: int, k: int)
    requires FirstDefault(agents, i) && FirstDefault(agents, k)
    ensures i == k
  {
  }

  /** Every agent whose name is falsy is skipped: selected name, else default name, else the literal "Agent". */
  lemma DisplayNameRule(agents: seq<Agent>, selectedAgentId: Option<string>)
    ensures forall i :: FirstSelected(agents, selectedAgentId, i) && agents[i].name != "" ==>
              DisplayName(agents, selectedAgentId) == agents[i].name
    ensures forall i :: FirstDefault(agents, i) && agents[i].name != "" &&
                        (forall j :: FirstSelected(agents, selectedAgentId, j) ==> agents[j].name == "") ==>
              DisplayName(agents, selectedAgentId) == agents[i].name
    ensures (forall j :: FirstSelected(agents, selectedAgentId, j) ==> agents[j].name == "") &&
            (forall j :: FirstDefault(agents, j) ==> agents[j].name == "") ==>
              DisplayName(agents, selectedAgentId) == "Agent"
  {
    var selected := SelectedAgent(agents, selectedAgentId);
    var default := DefaultAgent(agents);
    if selected.Some? {
      var k :| FirstSelected(agents, selectedAgentId, k) && selected.value == agents[k];
      forall i | FirstSelected(agents, selectedAgentId, i) ensures i == k {
        FirstSelectedUnique(agents, selectedAgentId, i, k);
      }
    }
    if default.Some? {
      var k :| FirstDefault(agents, k) && default.value == agents[k];
      forall i | FirstDefault(agents, i) ensures i == k {
        FirstDefaultUnique(agents, i, k);
      }
    }
  }

  /** The top row's check mark and an agent row's check mark never appear together. */
  lemma CheckMarksExclusive(agents: seq<Agent>, selectedAgentId: Option<string>)
    ensures forall i :: 0 <= i < |agents| && AgentRowChecked(selectedAgentId, agents[i]) ==>
              !IsUsingSuna(agents, selectedAgentId)
  {
  }

  /** A missing response is an empty list, and the separator shows exactly when some agent was returned. */
  lemma SeparatorRule(response: Option<AgentsResponse>)
    ensures response.None? ==> !SeparatorShown(AgentList(response))
    ensures SeparatorShown(AgentList(response)) <==>
              response.Some? && IsPresentAndNonEmpty(response.value.agents)
  {
  }

  /** Clearing emits `onAgentSelect(undefined)` once, choosing row i emits that agent's id once; both close the menu and leave the popover alone. */
  lemma SelectionEmitsOnce(agents: seq<Agent>, selectedAgentId: Option<string>, s: MenuState, i: nat)
    ensures var r := Step(agents, selectedAgentId, s, ClearSelection);
            r.emitted == [AgentSelected(None)] && !r.state.open && r.state.toolsOpen == s.toolsOpen
    ensures i < |agents| ==>
              var r := Step(agents, selectedAgentId, s, ChooseAgent(i));
              r.emitted == [AgentSelected(Some(agents[i].agentId))] && !r.state.open && r.state.toolsOpen == s.toolsOpen
  {
  }

  /** No two agents share an id. */
  ghost predicate DistinctIds(agents: seq<Agent>) {
    forall i, j :: 0 <= i < j < |agents| ==> agents[i].agentId != agents[j].agentId
  }

  /** Choosing a row and having the parent pass the emitted id back checks that row, unchecks the top row, and makes that agent the effective one. */
  lemma ChooseThenFeedBack(agents: seq<Agent>, selectedAgentId: Option<string>, s: MenuState, i: nat)
    requires i < |agents|
    ensures var id := Step(agents, selectedAgentId, s, ChooseAgent(i)).emitted[0].agentId;
            && AgentRowChecked(id, agents[i])
            && !IsUsingSuna(agents, id)
            && CurrentAgent(agents, id).Some?
            && CurrentAgent(agents, id).value.agentId == agents[i].agentId
            && (DistinctIds(agents) ==> CurrentAgent(agents, id) == Some(agents[i]))
  {
    var id := Some(agents[i].agentId);
    assert AgentRowChecked(id, agents[i]);
    assert !NoneSelected(agents, id);
    assert SelectedAgent(agents, id).Some?;
    var k :| FirstSelected(agents, id, k) && SelectedAgent(agents, id).value == agents[k];
    assert k <= i;
  }

  /** Clearing and having the parent pass `undefined` back checks no agent row and falls back to the default agent. */
  lemma ClearThenFeedBack(agents: seq<Agent>, selectedAgentId: Option<string>, s: MenuState)
    ensures var id := Step(agents, selectedAgentId, s, ClearSelection).emitted[0].agentId;
            && (forall i :: 0 <= i < |agents| ==> !AgentRowChecked(id, agents[i]))
            && CurrentAgent(agents, id) == DefaultAgent(agents)
            && (IsUsingSuna(agents, id) <==> NoDefault(agents))
  {
  }

  /** A selected id that names no fetched agent falls back to the default agent; the top row stays unchecked and no agent row is checked. */
  lemma StaleSelectionFallsBack(agents: seq<Agent>, staleId: string, k: int)
    requires forall i :: 0 <= i < |agents| ==> agents[i].agentId != staleId
    requires FirstDefault(agents, k) && agents[k].name != ""
    ensures DisplayName(agents, Some(staleId)) == agents[k].name
    ensures CurrentAgent(agents, Some(staleId)) == Some(agents[k])
    ensures !IsUsingSuna(agents, Some(staleId))
    ensures forall i :: 0 <= i < |agents| ==> !AgentRowChecked(Some(staleId), agents[i])
  {
    EffectiveAgentRule(agents, Some(staleId));
    DisplayNameRule(agents, Some(staleId));
  }

  const Writer := Agent("a1", "Writer", None, None, false, None, None)
  const Researcher := Agent("a2", "Researcher", None, None, true, None, None)

  /** Nothing selected, a default present: the button says "Researcher" and no row, not even the top one, is checked. */
  lemma NoSelectionWithDefaultScenario()
    ensures DisplayName([Writer, Researcher], None) == "Researcher"
    ensures !IsUsingSuna([Writer, Researcher], None)
    ensures !AgentRowChecked(None, Writer) && !AgentRowChecked(None, Researcher)
  {
    assert FirstDefault([Writer, Researcher], 1);
    DisplayNameRule([Writer, Researcher], None);
  }

  /** "a1" selected: the button says "Writer", its row is checked, the top row and the default agent's row are not. */
  lemma ExplicitSelectionScenario()
    ensures DisplayName([Writer, Researcher], Some("a1")) == "Writer"
    ensures AgentRowChecked(Some("a1"), Writer) && !AgentRowChecked(Some("a1"), Researcher)
    ensures !IsUsingSuna([Writer, Researcher], Some("a1"))
  {
    assert FirstSelected([Writer, Researcher], Some("a1"), 0);
    DisplayNameRule([Writer, Researcher], Some("a1"));
  }
}

=== FILE: constants.dfy ===
/**
 * The backend's static tier tables: which models each subscription tier may
 * use, how many runs a month each tier gets, and the short names that stand
 * for full model names.
 */
module Constants {
  import opened Wrappers

  const FreeTier := "free"
  const Pro75Tier := "pro_75"
  const AdminTier := "admin"

  const FreeModels: seq<string> := [
    "openrouter/deepseek/deepseek-chat",
    "openrouter/qwen/qwen3-235b-a22b",
    "openrouter/google/gemini-2.5-flash-preview-05-20",
    "anthropic/claude-3-5-haiku-latest"
  ]

  const Pro75Models: seq<string> := [
    "openrouter/deepseek/deepseek-chat",
    "openrouter/qwen/qwen3-235b-a22b",
    "openrouter/google/gemini-2.5-flash-preview-05-20",
    "anthropic/claude-3-5-haiku-latest",
    "anthropic/claude-3-7-sonnet-latest",
    "anthropic/claude-sonnet-4-20250514"
  ]

  const AdminModels: seq<string> := [
    "openrouter/deepseek/deepseek-chat",
    "openrouter/qwen/qwen3-235b-a22b",
    "openrouter/google/gemini-2.5-flash-preview-05-20",
    "anthropic/claude-3-5-haiku-latest",
    "anthropic/claude-3-7-sonnet-latest",
    "anthropic/claude-sonnet-4-20250514",
    "openai/o3",
    "openai/gpt-4.1"
  ]

  /** `MODEL_ACCESS_TIERS` */
  const ModelAccessTiers: map<string, seq<string>> :=
    map[FreeTier := FreeModels, Pro75Tier := Pro75Models, AdminTier := AdminModels]

  /** `SUBSCRIPTION_MESSAGE_LIMITS`: runs per month. */
  const SubscriptionMessageLimits: map<string, nat> :=
    map[FreeTier := 10, Pro75Tier := 150, AdminTier := 100000]

  /** `MODEL_NAME_ALIASES`, the entries that are not commented out, in source order. */
  const ModelNameAliases: map<string, string> := map[
    "sonnet-3.7" := "anthropic/claude-3-7-sonnet-latest",
    "sonnet-3.5" := "anthropic/claude-3-5-sonnet-latest",
    "sonnet-4" := "anthropic/claude-sonnet-4-20250514",
    "haiku-3.5" := "anthropic/claude-3-5-haiku-latest",
    "claude-sonnet-4" := "anthropic/claude-sonnet-4-20250514",
    "gpt-4o" := "openrouter/openai/gpt-4o",
    "gpt-4.1" := "openai/gpt-4.1",
    "gpt-4.1-mini" := "gpt-4.1-mini",
    "openai/o3" := "openai/o3",
    "deepseek" := "openrouter/deepseek/deepseek-chat",
    "qwen3" := "openrouter/qwen/qwen3-235b-a22b",
    "gemini-flash-2.5" := "openrouter/google/gemini-2.5-flash-preview-05-20",
    "gemini-2.5-flash:thinking" := "openrouter/google/gemini-2.5-flash-preview-05-20:thinking",
    "google/gemini-2.5-pro-preview" := "openrouter/google/gemini-2.5-pro-preview",
    "deepseek/deepseek-chat-v3-0324" := "openrouter/deepseek/deepseek-chat-v3-0324",
    "o3" := "openai/o3",
    "openrouter/openai/o3" := "openai/o3"
  ]

  /** A dictionary lookup: the value under `key`, or none for a missing key. */
  function Lookup<K, V>(m: map<K, V>, key: K): (r: Option<V>)
    ensures r.Some? <==> key in m
    ensures r.Some? ==> r.value == m[key]
  {
    if key in m then Some(m[key]) else None
  }

  function TierModels(tier: string): Option<seq<string>> {
    Lookup(ModelAccessTiers, tier)
  }

  function MessageLimit(tier: string): Option<nat> {
    Lookup(SubscriptionMessageLimits, tier)
  }

  function AliasTarget(name: string): Option<string> {
    Lookup(ModelNameAliases, name)
  }

  /** A model name with its alias replaced by the full name; a name that is not an alias stands for itself, and a resolved name is never an alias for something else. */
  function Resolve(name: string): (r: string)
    ensures name in ModelNameAliases ==> r == ModelNameAliases[name]
    ensures name !in ModelNameAliases ==> r == name
    ensures r in ModelNameAliases ==> ModelNameAliases[r] == r
  {
    var r := AliasTarget(name).GetOr(name);
    assert name in ModelNameAliases ==> r == "openai/o3" || r == "gpt-4.1-mini" || r !in ModelNameAliases;
    r
  }

  ghost predicate NoDuplicates<T>(xs: seq<T>) {
    forall i, j :: 0 <= i < j < |xs| ==> xs[i] != xs[j]
  }

  // ---------------------------------------------------------------------------
  // Properties of the tables
  // ---------------------------------------------------------------------------

  /** Each tier's list extends the one below it, so free ⊆ pro_75 ⊆ admin. */
  lemma TiersNest()
    ensures TierModels(FreeTier).Some? && TierModels(Pro75Tier).Some? && TierModels(AdminTier).Some?
    ensures TierModels(FreeTier).value <= TierModels(Pro75Tier).value <= TierModels(AdminTier).value
    ensures forall m :: m in TierModels(FreeTier).value ==> m in TierModels(Pro75Tier).value
    ensures forall m :: m in TierModels(Pro75Tier).value ==> m in TierModels(AdminTier).value
  {
    assert FreeModels == Pro75Models[..4];
    assert Pro75Models == AdminModels[..6];
  }

  /** Admin adds exactly o3 and GPT-4.1 to what pro_75 grants. */
  lemma AdminExtras()
    ensures (set m | m in AdminModels && m !in Pro75Models) == {"openai/o3", "openai/gpt-4.1"}
  {
  }

  /** Both tables cover the same three tiers, and the monthly limit rises strictly from free to pro_75 to admin. */
  lemma LimitsMatchTiers()
    ensures ModelAccessTiers.Keys == SubscriptionMessageLimits.Keys == {FreeTier, Pro75Tier, AdminTier}
    ensures MessageLimit(FreeTier).Some? && MessageLimit(Pro75Tier).Some? && MessageLimit(AdminTier).Some?
    ensures MessageLimit(FreeTier).value < MessageLimit(Pro75Tier).value < MessageLimit(AdminTier).value
  {
  }

  /** No tier lists a model twice. */
  lemma TierListsDistinct()
    ensures forall tier :: tier in ModelAccessTiers ==> NoDuplicates(ModelAccessTiers[tier])
  {
  }

  /** The three spellings of o3 all name "openai/o3", which names itself. */
  lemma O3Aliases()
    ensures AliasTarget("o3") == Some("openai/o3")
    ensures AliasTarget("openrouter/openai/o3") == Some("openai/o3")
    ensures AliasTarget("openai/o3") == Some("openai/o3")
  {
  }

  /** "sonnet-4" and "claude-sonnet-4" name the same full model, the one pro_75 grants. */
  lemma SonnetFourAliases()
    ensures AliasTarget("sonnet-4").Some? && AliasTarget("sonnet-4") == AliasTarget("claude-sonnet-4")
    ensures AliasTarget("sonnet-4").value in Pro75Models
  {
  }

  /** Resolving is idempotent: every full name an alias points to is either not an alias or maps to itself. */
  lemma ResolveIdempotent(name: string)
    ensures Resolve(Resolve(name)) == Resolve(name)
  {
  }
}

=== FILE: seqs.dfy ===
/** Searching a sequence front to back, as `Array.prototype.find` does. */
module Seqs {
  import opened Wrappers

  /** `i` is the position of the first element of `xs` that satisfies `p`. */
  ghost predicate IsFirstMatch<T>(xs: seq<T>, p: T -> bool, i: int) {
    && 0 <= i < |xs|
    && p(xs[i])
    && forall j :: 0 <= j < i ==> !p(xs[j])
  }

  /** No element of `xs` satisfies `p`. */
  ghost predicate NoMatch<T>(xs: seq<T>, p: T -> bool) {
    forall j :: 0 <= j < |xs| ==> !p(xs[j])
  }

  /** The index of the first element satisfying `p`, if any. */
  function FirstIndex<T>(xs: seq<T>, p: T -> bool): (r: Option<nat>)
    ensures r.Some? ==> IsFirstMatch(xs, p, r.value)
    ensures r.None? <==> NoMatch(xs, p)
  {
    if |xs| == 0 then None
    else if p(xs[0]) then Some(0)
    else
      match FirstIndex(xs[1..], p)
      case None => None
      case Some(k) => Some(k + 1)
  }

  /** The first element satisfying `p`, if any: `xs.find(p)`. */
  function Find<T>(xs: seq<T>, p: T -> bool): (r: Option<T>)
    ensures r.None? <==> NoMatch(xs, p)
    ensures r.Some? ==> exists i :: IsFirstMatch(xs, p, i) && r.value == xs[i]
  {
    match FirstIndex(xs, p)
    case None => None
    case Some(i) => Some(xs[i])
  }
}

=== FILE: text.dfy ===
/** String helpers the header needs: trimming and decimal rendering of a count. */
module Text {

  /** ASCII whitespace, the part of JavaScript's `trim` set this model keeps. */
  predicate IsWhitespace(c: char) {
    c == ' ' || c == '\t' || c == '\n' || c == '\U{000B}' || c == '\U{000C}' || c == '\r'
  }

  /** Every character of `s` is whitespace (vacuously true of the empty string). */
  ghost predicate AllWhitespace(s: string) {
    forall i :: 0 <= i < |s| ==> IsWhitespace(s[i])
  }

  /** `s` without its leading whitespace. */
  function TrimStart(s: string): (r: string)
    ensures |r| <= |s| && r == s[|s| - |r|..]
    ensures r == [] || !IsWhitespace(r[0])
    ensures AllWhitespace(s[..|s| - |r|])
  {
    if |s| > 0 && IsWhitespace(s[0]) then TrimStart(s[1..]) else s
  }

  /** `s` without its trailing whitespace. */
  function TrimEnd(s: string): (r: string)
    ensures |r| <= |s| && r == s[..|r|]
    ensures r == [] || !IsWhitespace(r[|r| - 1])
    ensures AllWhitespace(s[|r|..])
  {
    if |s| > 0 && IsWhitespace(s[|s| - 1]) then
      var r := TrimEnd(s[..|s| - 1]);
      assert s[|r|..] == s[..|s| - 1][|r|..] + [s[|s| - 1]];
      r
    else s
  }

  /** `s.trim()`: `s` without leading and trailing whitespace. */
  function Trim(s: string): (r: string)
    ensures |r| <= |s|
    ensures r == [] || (!IsWhitespace(r[0]) && !IsWhitespace(r[|r| - 1]))
    ensures r == [] <==> AllWhitespace(s)
  {
    TrimEnd(TrimStart(s))
  }

  /** The character of decimal digit `d`. */
  function DigitChar(d: nat): (c: char)
    requires d < 10
    ensures '0' <= c <= '9'
    ensures (c as int) - ('0' as int) == d
  {
    (('0' as int) + d) as char
  }

  predicate IsDigit(c: char) {
    '0' <= c <= '9'
  }

  ghost predicate AllDigits(s: string) {
    forall i :: 0 <= i < |s| ==> IsDigit(s[i])
  }

  /** The shortest decimal numeral of `n`, as JavaScript's `String(n)` writes it. */
  function NatToDecimal(n: nat): (s: string)
    ensures |s| >= 1 && AllDigits(s)
    ensures s[0] == '0' ==> n == 0
  {
    if n < 10 then [DigitChar(n)] else NatToDecimal(n / 10) + [DigitChar(n % 10)]
  }

  /** The number a string of digits denotes. */
  function DecimalValue(s: string): nat
    requires AllDigits(s)
  {
    if |s| == 0 then 0
    else DecimalValue(s[..|s| - 1]) * 10 + ((s[|s| - 1] as int) - ('0' as int))
  }

  /** Reading back a rendered numeral gives the number. */
  lemma {:induction false} DecimalRoundTrip(n: nat)
    ensures DecimalValue(NatToDecimal(n)) == n
  {
    if n >= 10 {
      var s := NatToDecimal(n);
      assert s[..|s| - 1] == NatToDecimal(n / 10);
      DecimalRoundTrip(n / 10);
    }
  }

  /**
   * `s` is the shortest numeral of `i`: digits denoting `i` with no leading zero (other than
   * "0" itself), or for a negative `i` a minus sign followed by such digits denoting `-i`.
   */
  ghost predicate IsNumeralOf(s: string, i: int) {
    if i >= 0 then |s| >= 1 && (s[0] == '0' ==> |s| == 1) && AllDigits(s) && DecimalValue(s) == i
    else |s| >= 2 && s[0] == '-' && s[1] != '0' && AllDigits(s[1..]) && DecimalValue(s[1..]) == -i
  }

  /** `String(i)` for an integer `i`: a minus sign before the magnitude when negative. */
  function IntToDecimal(i: int): (s: string)
    ensures |s| >= 1
    ensures i >= 0 <==> s[0] != '-'
    ensures IsNumeralOf(s, i)
  {
    if i < 0 then
      DecimalRoundTrip(-i);
      assert ("-" + NatToDecimal(-i))[1..] == NatToDecimal(-i);
      "-" + NatToDecimal(-i)
    else
      DecimalRoundTrip(i);
      NatToDecimal(i)
  }

  /** Rendering integers loses nothing: distinct integers have distinct numerals. */
  lemma IntToDecimalInjective(i: int, j: int)
    requires IntToDecimal(i) == IntToDecimal(j)
    ensures i == j
  {
    if i < 0 && j < 0 {
      assert NatToDecimal(-i) == IntToDecimal(i)[1..];
      assert NatToDecimal(-j) == IntToDecimal(j)[1..];
      DecimalRoundTrip(-i);
      DecimalRoundTrip(-j);
    } else if i >= 0 && j >= 0 {
      DecimalRoundTrip(i);
      DecimalRoundTrip(j);
    }
  }
}

=== FILE: thread_header.dfy ===
/**
 * The inline project-rename flow of the thread header, as a pure transition
 * system. Each handler maps the edit state (`isEditing`, `editName`) and the
 * header's props to a new edit state and the effects it emits, in order. The
 * awaited project update is one atomic step whose outcome is an input.
 */
module ThreadHeader {
  import opened Wrappers
  import opened Text

  /** The props the rename flow reads; `hasRenameHandler` says whether `onProjectRenamed` was passed. */
  datatype HeaderProps = HeaderProps(projectId: string, projectName: string, hasRenameHandler: bool)

  /** The header's two pieces of rename state. */
  datatype EditState = EditState(isEditing: bool, editName: string)

  /** How the awaited `mutateAsync` settled: a truthy or falsy result, or a rejection with or without an `Error`. */
  datatype UpdateOutcome =
    | Resolved(truthy: bool)
    | RejectedWithError(message: string)
    | RejectedWithOther

  /** What a handler does to the outside world. */
  datatype Effect =
    | UpdateCall(projectId: string, name: string)   // updateProjectMutation.mutateAsync
    | Toast(message: string)                        // toast.error
    | Renamed(name: string)                         // onProjectRenamed
    | Invalidate(projectId: string)                 // invalidateQueries(threadKeys.project(projectId))

  datatype Transition = Transition(state: EditState, effects: seq<Effect>)

  const MissingIdMessage := "Cannot rename: Project ID is missing"
  const FalsyResultMessage := "Failed to update project"
  const NonErrorMessage := "Failed to rename project"

  /** The state on mount: not editing, the draft seeded with the project name. */
  function InitialState(props: HeaderProps): EditState {
    EditState(false, props.projectName)
  }

  /** `startEditing`: whatever came before, the draft is reseeded as on mount and editing starts, with nothing emitted. */
  function StartEditing(props: HeaderProps, s: EditState): (t: Transition)
    ensures t.state == InitialState(props).(isEditing := true)
    ensures t.effects == []
  {
    Transition(EditState(true, props.projectName), [])
  }

  /** `cancelEditing`: whatever was typed, the state returns to the one on mount, with nothing emitted. */
  function CancelEditing(props: HeaderProps, s: EditState): (t: Transition)
    ensures t.state == InitialState(props)
    ensures t.effects == []
  {
    Transition(EditState(false, props.projectName), [])
  }

  /** The input's `onChange`: the draft becomes the field's text. */
  function ChangeDraft(s: EditState, text: string): Transition {
    Transition(s.(editName := text), [])
  }

  /** The toast text for an update that did not succeed; none for a truthy result. */
  function FailureMessage(outcome: UpdateOutcome): (m: Option<string>)
    ensures m.None? <==> outcome == Resolved(true)
  {
    match outcome
    case Resolved(truthy) => if truthy then None else Some(FalsyResultMessage)
    case RejectedWithError(message) => Some(message)
    case RejectedWithOther => Some(NonErrorMessage)
  }

  /** The save path reaches the update call: a non-blank, changed draft and a project id. */
  predicate SaveCallsUpdate(props: HeaderProps, s: EditState) {
    Trim(s.editName) != "" && s.editName != props.projectName && props.projectId != ""
  }

  /** `saveNewName`, with the awaited update's outcome supplied. */
  function SaveNewName(props: HeaderProps, s: EditState, outcome: UpdateOutcome): (t: Transition)
    ensures !t.state.isEditing
  {
    var draft := s.editName;
    if Trim(draft) == "" then
      Transition(EditState(false, props.projectName), [])
    else if draft != props.projectName then
      if props.projectId == "" then
        Transition(EditState(false, props.projectName), [Toast(MissingIdMessage)])
      else
        var call := UpdateCall(props.projectId, draft);
        match FailureMessage(outcome)
        case None =>
          var renamed := if props.hasRenameHandler then [Renamed(draft)] else [];
          Transition(EditState(false, draft), [call] + renamed + [Invalidate(props.projectId)])
        case Some(message) =>
          Transition(EditState(false, props.projectName), [call, Toast(message)])
    else
      Transition(s.(isEditing := false), [])
  }

  /** `handleKeyDown`: Enter saves, Escape returns to the state on mount silently, any other key changes nothing. */
  function HandleKeyDown(props: HeaderProps, s: EditState, key: string, outcome: UpdateOutcome): (t: Transition)
    ensures key == "Enter" ==> t == SaveNewName(props, s, outcome)
    ensures key == "Escape" ==> t == Transition(InitialState(props), [])
    ensures key != "Enter" && key != "Escape" ==> t == Transition(s, [])
  {
    if key == "Enter" then SaveNewName(props, s, outcome)
    else if key == "Escape" then CancelEditing(props, s)
    else Transition(s, [])
  }

  // ---------------------------------------------------------------------------
  // Properties of single handlers
  // ---------------------------------------------------------------------------

  /** A blank draft is discarded silently: draft reset, editing left, nothing emitted. */
  lemma SaveBlankDraft(props: HeaderProps, s: EditState, outcome: UpdateOutcome)
    requires AllWhitespace(s.editName)
    ensures SaveNewName(props, s, outcome) == Transition(EditState(false, props.projectName), [])
  {
  }

  /** A draft equal to the project name (compared untrimmed) calls nothing, toasts nothing, and leaves editing. */
  lemma SaveUnchangedDraft(props: HeaderProps, s: EditState, outcome: UpdateOutcome)
    requires s.editName == props.projectName
    ensures SaveNewName(props, s, outcome) == Transition(EditState(false, props.projectName), [])
  {
  }

  /** A changed draft without a project id toasts once, resets the draft and calls nothing. */
  lemma SaveMissingProjectId(props: HeaderProps, s: EditState, outcome: UpdateOutcome)
    requires !AllWhitespace(s.editName) && s.editName != props.projectName
    requires props.projectId == ""
    ensures SaveNewName(props, s, outcome) ==
              Transition(EditState(false, props.projectName), [Toast(MissingIdMessage)])
  {
  }

  /** A truthy update: one call with the untrimmed draft, then the rename callback (when passed) and one invalidation, no toast. */
  lemma SaveSucceeds(props: HeaderProps, s: EditState)
    requires SaveCallsUpdate(props, s)
    ensures var t := SaveNewName(props, s, Resolved(true));
            && t.state == EditState(false, s.editName)
            && t.effects == [UpdateCall(props.projectId, s.editName)]
                            + (if props.hasRenameHandler then [Renamed(s.editName)] else [])
                            + [Invalidate(props.projectId)]
            && forall e :: e in t.effects ==> !e.Toast?
  {
  }

  /** A falsy result or a rejection: the call, then exactly one toast with the failure's text; the draft reverts, nothing is renamed or invalidated. */
  lemma SaveFails(props: HeaderProps, s: EditState, outcome: UpdateOutcome)
    requires SaveCallsUpdate(props, s)
    requires outcome != Resolved(true)
    ensures var t := SaveNewName(props, s, outcome);
            && t.state == EditState(false, props.projectName)
            && t.effects == [UpdateCall(props.projectId, s.editName), Toast(FailureMessage(outcome).value)]
    ensures outcome == Resolved(false) ==> FailureMessage(outcome) == Some("Failed to update project")
    ensures outcome.RejectedWithError? ==> FailureMessage(outcome) == Some(outcome.message)
    ensures outcome == RejectedWithOther ==> FailureMessage(outcome) == Some("Failed to rename project")
  {
  }

  /** Only a save that reaches the update call depends on how the update settles. */
  lemma OutcomeMattersOnlyAfterCall(props: HeaderProps, s: EditState, o1: UpdateOutcome, o2: UpdateOutcome)
    requires !SaveCallsUpdate(props, s)
    ensures SaveNewName(props, s, o1) == SaveNewName(props, s, o2)
  {
  }

  // ---------------------------------------------------------------------------
  // A header session: the handlers as the rendered controls can fire them,
  // with a parent that adopts every name reported through onProjectRenamed.
  // ---------------------------------------------------------------------------

  datatype HeaderEvent =
    | ClickTitle            // the project name, shown when not editing
    | TypeText(text: string)
    | Blur                  // the input losing focus
    | ClickConfirm          // a pointer press on the check button
    | ClickCross            // a pointer press on the cross button
    | PressKey(key: string)

  /** A pointer press on one of the two buttons beside the input. */
  predicate IsButtonClick(ev: HeaderEvent) {
    ev.ClickConfirm? || ev.ClickCross?
  }

  /** One event together with the outcome its save, if any, will see. */
  datatype HeaderStep = HeaderStep(event: HeaderEvent, outcome: UpdateOutcome)

  /** The parent's committed name and the header's own state. */
  datatype Session = Session(projectName: string, edit: EditState)

  datatype Trace = Trace(session: Session, effects: seq<Effect>)

  /** The title is clickable only when it is a real name (a missing name or "Project" shows a skeleton). */
  predicate TitleShown(projectName: string) {
    projectName != "" && projectName != "Project"
  }

  /** An event can fire only while its control is rendered. */
  predicate Enabled(s: Session, ev: HeaderEvent) {
    if ev.ClickTitle? then !s.edit.isEditing && TitleShown(s.projectName) else s.edit.isEditing
  }

  /** The handler an event runs. */
  function Dispatch(props: HeaderProps, s: EditState, ev: HeaderEvent, outcome: UpdateOutcome): Transition {
    match ev
    case ClickTitle => StartEditing(props, s)
    case TypeText(text) => ChangeDraft(s, text)
    case Blur => SaveNewName(props, s, outcome)
    case ClickConfirm => SaveNewName(props, s, outcome)
    case ClickCross => CancelEditing(props, s)
    case PressKey(key) => HandleKeyDown(props, s, key, outcome)
  }

  /** The committed name after the parent has seen `effects`: the last reported rename, if any. */
  function Adopt(projectName: string, effects: seq<Effect>): (name: string)
    ensures (forall e :: e in effects ==> !e.Renamed?) ==> name == projectName
    ensures name == projectName || Renamed(name) in effects
  {
    if |effects| == 0 then projectName
    else if effects[|effects| - 1].Renamed? then effects[|effects| - 1].name
    else Adopt(projectName, effects[..|effects| - 1])
  }

  /** One handler, run only if its control is rendered, with the parent adopting any reported rename. */
  function Fire(projectId: string, s: Session, ev: HeaderEvent, outcome: UpdateOutcome): Trace {
    if Enabled(s, ev) then
      var t := Dispatch(HeaderProps(projectId, s.projectName, true), s.edit, ev, outcome);
      Trace(Session(Adopt(s.projectName, t.effects), t.state), t.effects)
    else Trace(s, [])
  }

  /**
   * One user action. A pointer press on a button beside the input first takes focus
   * from the input, so its `onBlur` save runs; the button's own `onClick` runs
   * afterwards, and only if the editor is still rendered.
   */
  function SessionStep(projectId: string, s: Session, step: HeaderStep): Trace {
    if IsButtonClick(step.event) then
      var blurred := Fire(projectId, s, Blur, step.outcome);
      var clicked := Fire(projectId, blurred.session, step.event, step.outcome);
      Trace(clicked.session, blurred.effects + clicked.effects)
    else Fire(projectId, s, step.event, step.outcome)
  }

  /** Runs `steps` one after another through `step`, collecting the effects in order. */
  function Fold(step: (Session, HeaderStep) -> Trace, s: Session, steps: seq<HeaderStep>): Trace
    decreases |steps|
  {
    if |steps| == 0 then Trace(s, [])
    else
      var first := step(s, steps[0]);
      var rest := Fold(step, first.session, steps[1..]);
      Trace(rest.session, first.effects + rest.effects)
  }

  /** A header session driven by `steps`. */
  function Run(projectId: string, s: Session, steps: seq<HeaderStep>): Trace {
    Fold((t, st) => SessionStep(projectId, t, st), s, steps)
  }

  /** While not editing, the draft is the committed name. */
  predicate DraftMatchesWhenViewing(s: Session) {
    !s.edit.isEditing ==> s.edit.editName == s.projectName
  }

  /** After any save, the draft is the name a parent holds once it has adopted every reported rename. */
  lemma SaveLeavesAdoptedName(props: HeaderProps, s: EditState, outcome: UpdateOutcome)
    requires props.hasRenameHandler
    ensures var t := SaveNewName(props, s, outcome);
            t.state.editName == Adopt(props.projectName, t.effects)
  {
    if SaveCallsUpdate(props, s) && outcome == Resolved(true) {
      SuccessIsAdopted(props, s);
    } else {
      OtherSavesReportNoRename(props, s, outcome);
    }
  }

  lemma SuccessIsAdopted(props: HeaderProps, s: EditState)
    requires props.hasRenameHandler && SaveCallsUpdate(props, s)
    ensures var t := SaveNewName(props, s, Resolved(true));
            t.state.editName == Adopt(props.projectName, t.effects)
  {
    SaveSucceeds(props, s);
    var prefix := [UpdateCall(props.projectId, s.editName), Renamed(s.editName)];
    var effects := [UpdateCall(props.projectId, s.editName)] + [Renamed(s.editName)] + [Invalidate(props.projectId)];
    assert effects[..2] == prefix;
    assert Adopt(props.projectName, effects) == s.editName;
  }

  lemma OtherSavesReportNoRename(props: HeaderProps, s: EditState, outcome: UpdateOutcome)
    requires !(SaveCallsUpdate(props, s) && outcome == Resolved(true))
    ensures var t := SaveNewName(props, s, outcome);
            t.state.editName == props.projectName && forall e :: e in t.effects ==> !e.Renamed?
  {
    if Trim(s.editName) == "" {
      SaveBlankDraft(props, s, outcome);
    } else if s.editName == props.projectName {
      SaveUnchangedDraft(props, s, outcome);
    } else if props.projectId == "" {
      SaveMissingProjectId(props, s, outcome);
    } else {
      SaveFails(props, s, outcome);
    }
  }

  /** Every handler keeps the draft equal to the committed name whenever editing is off. */
  lemma FireKeepsDraft(projectId: string, s: Session, ev: HeaderEvent, outcome: UpdateOutcome)
    requires DraftMatchesWhenViewing(s)
    ensures DraftMatchesWhenViewing(Fire(projectId, s, ev, outcome).session)
  {
    var props := HeaderProps(projectId, s.projectName, true);
    if Enabled(s, ev) {
      match ev
      case Blur =>
        SaveLeavesAdoptedName(props, s.edit, outcome);
      case ClickConfirm =>
        SaveLeavesAdoptedName(props, s.edit, outcome);
      case PressKey(key) =>
        if key == "Enter" {
          SaveLeavesAdoptedName(props, s.edit, outcome);
        }
      case _ =>
    }
  }

  /** Every user action, including the blur a button press causes, keeps the draft equal to the committed name whenever editing is off. */
  lemma SessionStepKeepsDraft(projectId: string, s: Session, step: HeaderStep)
    requires DraftMatchesWhenViewing(s)
    ensures DraftMatchesWhenViewing(SessionStep(projectId, s, step).session)
  {
    if IsButtonClick(step.event) {
      FireKeepsDraft(projectId, s, Blur, step.outcome);
      FireKeepsDraft(projectId, Fire(projectId, s, Blur, step.outcome).session, step.event, step.outcome);
    } else {
      FireKeepsDraft(projectId, s, step.event, step.outcome);
    }
  }

  /** Over any run, the draft equals the committed name whenever editing is off. */
  lemma RunKeepsDraft(projectId: string, s: Session, steps: seq<HeaderStep>)
    requires DraftMatchesWhenViewing(s)
    ensures DraftMatchesWhenViewing(Run(projectId, s, steps).session)
  {
    FoldKeepsDraft(projectId, s, steps);
  }

  lemma {:induction false} FoldKeepsDraft(projectId: string, s: Session, steps: seq<HeaderStep>)
    requires DraftMatchesWhenViewing(s)
    ensures DraftMatchesWhenViewing(Fold((t, st) => SessionStep(projectId, t, st), s, steps).session)
    decreases |steps|
  {
    if |steps| > 0 {
      SessionStepKeepsDraft(projectId, s, steps[0]);
      FoldKeepsDraft(projectId, SessionStep(projectId, s, steps[0]).session, steps[1..]);
    }
  }

  /** Folding two batches of steps is folding their concatenation. */
  lemma {:induction false} FoldAppend(step: (Session, HeaderStep) -> Trace, s: Session, a: seq<HeaderStep>, b: seq<HeaderStep>)
    ensures var first := Fold(step, s, a);
            var second := Fold(step, first.session, b);
            Fold(step, s, a + b) == Trace(second.session, first.effects + second.effects)
    decreases |a|
  {
    if |a| > 0 {
      var head := step(s, a[0]);
      var restA := Fold(step, head.session, a[1..]);
      var second := Fold(step, restA.session, b);
      assert (a + b)[0] == a[0];
      assert (a + b)[1..] == a[1..] + b;
      FoldAppend(step, head.session, a[1..], b);
      assert head.effects + (restA.effects + second.effects) == (head.effects + restA.effects) + second.effects;
    } else {
      assert a + b == b;
    }
  }

  /** Running two batches of steps is running their concatenation. */
  lemma RunAppend(projectId: string, s: Session, a: seq<HeaderStep>, b: seq<HeaderStep>)
    ensures var first := Run(projectId, s, a);
            var second := Run(projectId, first.session, b);
            Run(projectId, s, a + b) == Trace(second.session, first.effects + second.effects)
  {
    FoldAppend((t, st) => SessionStep(projectId, t, st), s, a, b);
  }

  /** A run of one step is that step. */
  lemma RunSingle(projectId: string, s: Session, step: HeaderStep)
    ensures Run(projectId, s, [step]) == SessionStep(projectId, s, step)
  {
    var first := SessionStep(projectId, s, step);
    assert [step][1..] == [];
    assert Fold((t, st) => SessionStep(projectId, t, st), first.session, [step][1..]) == Trace(first.session, []);
    assert first.effects + [] == first.effects;
  }

  /** A run is its first step followed by the run of the rest. */
  lemma RunCons(projectId: string, s: Session, steps: seq<HeaderStep>)
    requires |steps| > 0
    ensures var first := SessionStep(projectId, s, steps[0]);
            var rest := Run(projectId, first.session, steps[1..]);
            Run(projectId, s, steps) == Trace(rest.session, first.effects + rest.effects)
  {
    assert steps == [steps[0]] + steps[1..];
    RunAppend(projectId, s, [steps[0]], steps[1..]);
    RunSingle(projectId, s, steps[0]);
  }

  /** Typing only changes the draft. */
  function Typing(texts: seq<string>, outcome: UpdateOutcome): (steps: seq<HeaderStep>)
    ensures |steps| == |texts|
    ensures forall i :: 0 <= i < |steps| ==> steps[i] == HeaderStep(TypeText(texts[i]), outcome)
  {
    if |texts| == 0 then [] else [HeaderStep(TypeText(texts[0]), outcome)] + Typing(texts[1..], outcome)
  }

  /** While editing, typing changes the draft to the last text typed and emits nothing. */
  lemma {:induction false} TypingOnlyChangesDraft(projectId: string, s: Session, texts: seq<string>, outcome: UpdateOutcome)
    requires s.edit.isEditing
    ensures Run(projectId, s, Typing(texts, outcome)) ==
              Trace(Session(s.projectName, EditState(true, if |texts| == 0 then s.edit.editName else texts[|texts| - 1])), [])
    decreases |texts|
  {
    var steps := Typing(texts, outcome);
    if |texts| > 0 {
      assert steps[1..] == Typing(texts[1..], outcome);
      var first := SessionStep(projectId, s, steps[0]);
      assert first == Trace(Session(s.projectName, EditState(true, texts[0])), []);
      RunCons(projectId, s, steps);
      TypingOnlyChangesDraft(projectId, first.session, texts[1..], outcome);
    } else {
      assert Run(projectId, s, steps) == Trace(s, []);
    }
  }

  /** Typing is ignored while the input is not rendered. */
  lemma {:induction false} TypingNeedsEditing(projectId: string, s: Session, texts: seq<string>, outcome: UpdateOutcome)
    requires !s.edit.isEditing
    ensures Run(projectId, s, Typing(texts, outcome)) == Trace(s, [])
    decreases |texts|
  {
    var steps := Typing(texts, outcome);
    if |texts| > 0 {
      assert steps[1..] == Typing(texts[1..], outcome);
      assert SessionStep(projectId, s, steps[0]) == Trace(s, []);
      RunCons(projectId, s, steps);
      TypingNeedsEditing(projectId, s, texts[1..], outcome);
    } else {
      assert Run(projectId, s, steps) == Trace(s, []);
    }
  }

  /** While the name is missing or the placeholder "Project", the title is a skeleton: clicking it does nothing. */
  lemma TitleNeedsRealName(projectId: string, s: Session, outcome: UpdateOutcome)
    requires !s.edit.isEditing && !TitleShown(s.projectName)
    ensures s.projectName == "" || s.projectName == "Project"
    ensures SessionStep(projectId, s, HeaderStep(ClickTitle, outcome)) == Trace(s, [])
  {
  }

  /** With a real name shown, clicking the title starts editing with the draft reseeded and emits nothing. */
  lemma TitleStartsEditing(projectId: string, s: Session, outcome: UpdateOutcome)
    requires !s.edit.isEditing && TitleShown(s.projectName)
    ensures SessionStep(projectId, s, HeaderStep(ClickTitle, outcome)) ==
              Trace(Session(s.projectName, EditState(true, s.projectName)), [])
  {
  }

  /** Starting, typing anything and pressing Escape leaves the session exactly as it was and emits nothing. */
  lemma CancelUndoesEditing(projectId: string, s: Session, texts: seq<string>, outcome: UpdateOutcome)
    requires !s.edit.isEditing && DraftMatchesWhenViewing(s)
    ensures Run(projectId, s, [HeaderStep(ClickTitle, outcome)] + Typing(texts, outcome) + [HeaderStep(PressKey("Escape"), outcome)]) ==
              Trace(s, [])
  {
    var start := HeaderStep(ClickTitle, outcome);
    var typing := Typing(texts, outcome);
    var cancel := HeaderStep(PressKey("Escape"), outcome);
    RunAppend(projectId, s, [start] + typing, [cancel]);
    RunAppend(projectId, s, [start], typing);
    RunSingle(projectId, s, start);
    if TitleShown(s.projectName) {
      var editing := Session(s.projectName, EditState(true, s.projectName));
      assert SessionStep(projectId, s, start) == Trace(editing, []);
      TypingOnlyChangesDraft(projectId, editing, texts, outcome);
      var typed := Run(projectId, editing, typing).session;
      RunSingle(projectId, typed, cancel);
      assert SessionStep(projectId, typed, cancel) == Trace(s, []);
    } else {
      assert SessionStep(projectId, s, start) == Trace(s, []);
      TypingNeedsEditing(projectId, s, texts, outcome);
      RunSingle(projectId, s, cancel);
      assert SessionStep(projectId, s, cancel) == Trace(s, []);
    }
  }

  /** With each save atomic, a press on either button does exactly what the input's blur does: the blur's save closes the editor, so the button's own handler never runs. */
  lemma ButtonClickIsBlurSave(projectId: string, s: Session, step: HeaderStep)
    requires IsButtonClick(step.event)
    ensures SessionStep(projectId, s, step) == Fire(projectId, s, Blur, step.outcome)
  {
    var blurred := Fire(projectId, s, Blur, step.outcome);
    assert !blurred.session.edit.isEditing;
    assert Fire(projectId, blurred.session, step.event, step.outcome) == Trace(blurred.session, []);
    assert blurred.effects + [] == blurred.effects;
  }

  /** With each save atomic, the cross button saves rather than cancels: while editing, it emits what `saveNewName` emits and leaves editing with the draft the save left. */
  lemma CrossButtonSaves(projectId: string, s: Session, outcome: UpdateOutcome)
    requires s.edit.isEditing
    ensures var t := SaveNewName(HeaderProps(projectId, s.projectName, true), s.edit, outcome);
            var after := SessionStep(projectId, s, HeaderStep(ClickCross, outcome));
            after.effects == t.effects && after.session.edit == t.state
  {
    ButtonClickIsBlurSave(projectId, s, HeaderStep(ClickCross, outcome));
    BlurIsSave(projectId, s, outcome);
  }

  /** While editing, the input's blur is `saveNewName`, with the parent adopting any reported rename. */
  lemma BlurIsSave(projectId: string, s: Session, outcome: UpdateOutcome)
    requires s.edit.isEditing
    ensures var t := SaveNewName(HeaderProps(projectId, s.projectName, true), s.edit, outcome);
            Fire(projectId, s, Blur, outcome) == Trace(Session(Adopt(s.projectName, t.effects), t.state), t.effects)
  {
    assert Enabled(s, Blur);
  }

  /** With each save atomic, the cross button on a changed draft "New" of project "Old": the project is renamed, not left alone. */
  lemma CrossButtonRenamesScenario()
    ensures SessionStep("p1", Session("Old", EditState(true, "New")), HeaderStep(ClickCross, Resolved(true))) ==
              Trace(Session("New", EditState(false, "New")), [UpdateCall("p1", "New"), Renamed("New"), Invalidate("p1")])
  {
    assert !AllWhitespace("New") by { assert "New"[0] == 'N'; }
    ButtonClickIsBlurSave("p1", Session("Old", EditState(true, "New")), HeaderStep(ClickCross, Resolved(true)));
    BlurCommits("p1", "Old", "New");
  }

  /** The cross button on a changed draft without a project id: the missing-id toast, not a silent cancel. */
  lemma CrossButtonMissingIdScenario()
    ensures SessionStep("", Session("Old", EditState(true, "New")), HeaderStep(ClickCross, Resolved(true))).effects ==
              [Toast("Cannot rename: Project ID is missing")]
  {
    assert !AllWhitespace("New") by { assert "New"[0] == 'N'; }
    CrossButtonSaves("", Session("Old", EditState(true, "New")), Resolved(true));
    SaveMissingProjectId(HeaderProps("", "Old", true), EditState(true, "New"), Resolved(true));
  }

  /** A blur on a changed, non-blank draft whose update succeeds commits it. */
  lemma BlurCommits(projectId: string, projectName: string, name: string)
    requires SaveCallsUpdate(HeaderProps(projectId, projectName, true), EditState(true, name))
    ensures Fire(projectId, Session(projectName, EditState(true, name)), Blur, Resolved(true)) ==
              Trace(Session(name, EditState(false, name)), [UpdateCall(projectId, name), Renamed(name), Invalidate(projectId)])
  {
    var props := HeaderProps(projectId, projectName, true);
    var effects := [UpdateCall(projectId, name), Renamed(name), Invalidate(projectId)];
    SaveSucceeds(props, EditState(true, name));
    assert [UpdateCall(projectId, name)] + [Renamed(name)] + [Invalidate(projectId)] == effects;
    var t := Dispatch(props, EditState(true, name), Blur, Resolved(true));
    assert t == Transition(EditState(false, name), effects);
    assert Adopt(projectName, effects) == name by {
      assert effects[..2] == [UpdateCall(projectId, name), Renamed(name)];
    }
  }

  /** Renaming end to end: click the title, type a new name, press Enter, and the update succeeds. */
  lemma RenameRoundTrip(projectId: string, s: Session, name: string)
    requires !s.edit.isEditing && TitleShown(s.projectName)
    requires projectId != "" && !AllWhitespace(name) && name != s.projectName
    ensures Run(projectId, s, [HeaderStep(ClickTitle, Resolved(true)), HeaderStep(TypeText(name), Resolved(true)),
                               HeaderStep(PressKey("Enter"), Resolved(true))]) ==
              Trace(Session(name, EditState(false, name)),
                    [UpdateCall(projectId, name), Renamed(name), Invalidate(projectId)])
  {
    var start, typing, confirm := HeaderStep(ClickTitle, Resolved(true)), HeaderStep(TypeText(name), Resolved(true)), HeaderStep(PressKey("Enter"), Resolved(true));
    var s1 := Session(s.projectName, EditState(true, s.projectName));
    var s2 := Session(s.projectName, EditState(true, name));
    assert [start, typing, confirm] == [start] + [typing] + [confirm];
    RunAppend(projectId, s, [start] + [typing], [confirm]);
    RunAppend(projectId, s, [start], [typing]);
    RunSingle(projectId, s, start);
    assert SessionStep(projectId, s, start) == Trace(s1, []);
    RunSingle(projectId, s1, typing);
    assert SessionStep(projectId, s1, typing) == Trace(s2, []);
    RunSingle(projectId, s2, confirm);
    assert Trim(name) != "";
    var props := HeaderProps(projectId, s.projectName, true);
    assert Dispatch(props, s2.edit, confirm.event, confirm.outcome) == Dispatch(props, s2.edit, Blur, confirm.outcome);
    BlurCommits(projectId, s.projectName, name);
  }
}

=== FILE: usage_indicator.dfy ===
/**
 * The usage indicator in the thread header: a pure mapping from the usage
 * snapshot to what the control shows and whether clicking it opens billing.
 */
module UsageIndicator {
  import opened Text

  /** What the usage hook reports. */
  datatype UsageSnapshot = UsageSnapshot(
    isLoading: bool,
    hasMessagesLeft: bool,
    messagesLeft: int,
    isFreeUser: bool,
    shouldShowUpgrade: bool)

  /** The three things the control can say. */
  datatype Label = RunsRemaining(count: int) | UpgradePrompt | LimitReached

  /** The control is either not rendered, or rendered with a caption and possibly a click handler. */
  datatype Indicator = Hidden | Shown(caption: Label, clickable: bool)

  const RunsRemainingSuffix := " runs remaining"
  const UpgradeText := "Upgrade for more messages"
  const LimitReachedText := "Monthly limit reached"

  /** The indicator for a snapshot: hidden exactly while loading; otherwise the count iff messages are left, else the upgrade prompt for free users and the limit notice for others; clickable iff an upgrade should be shown. */
  function IndicatorFor(u: UsageSnapshot): (view: Indicator)
    ensures view.Hidden? <==> u.isLoading
    ensures !u.isLoading ==>
              && (view.caption.RunsRemaining? <==> u.hasMessagesLeft)
              && (u.hasMessagesLeft ==> view.caption.count == u.messagesLeft)
              && (!u.hasMessagesLeft ==> (view.caption == UpgradePrompt <==> u.isFreeUser))
              && (!u.hasMessagesLeft ==> (view.caption == LimitReached <==> !u.isFreeUser))
              && (view.clickable <==> u.shouldShowUpgrade)
  {
    if u.isLoading then Hidden
    else
      var caption :=
        if u.hasMessagesLeft then RunsRemaining(u.messagesLeft)
        else if u.isFreeUser then UpgradePrompt
        else LimitReached;
      Shown(caption, u.shouldShowUpgrade)
  }

  /** The text the caption renders: the count's numeral followed by " runs remaining", or one of the two fixed notices. */
  function LabelText(caption: Label): (text: string)
    ensures caption.RunsRemaining? ==>
              && EndsWithRunsSuffix(text) && |text| > |RunsRemainingSuffix|
              && IsNumeralOf(text[..|text| - |RunsRemainingSuffix|], caption.count)
    ensures caption == UpgradePrompt ==> text == "Upgrade for more messages"
    ensures caption == LimitReached ==> text == "Monthly limit reached"
  {
    match caption
    case RunsRemaining(count) => IntToDecimal(count) + RunsRemainingSuffix
    case UpgradePrompt => UpgradeText
    case LimitReached => LimitReachedText
  }

  /** Clicking the indicator: the billing dialog opens exactly when the snapshot is loaded and asks for an upgrade; otherwise nothing changes, and an open dialog is never closed. */
  function Click(u: UsageSnapshot, billingOpen: bool): (billingNowOpen: bool)
    ensures billingNowOpen == (billingOpen || (!u.isLoading && u.shouldShowUpgrade))
    ensures billingOpen ==> billingNowOpen
  {
    var view := IndicatorFor(u);
    if view.Shown? && view.clickable then true else billingOpen
  }

  /** Clicking a second time changes nothing more: the dialog state after one click is a fixed point. */
  lemma ClickIdempotent(u: UsageSnapshot, billingOpen: bool)
    ensures Click(u, Click(u, billingOpen)) == Click(u, billingOpen)
  {
  }

  /** Different captions read differently, so the text alone tells which case the snapshot was in and what count it had. */
  lemma LabelTextInjective(a: Label, b: Label)
    requires LabelText(a) == LabelText(b)
    ensures a == b
  {
    FixedCaptionsDiffer();
    if a.RunsRemaining? && b.RunsRemaining? {
      CountCaptionInjective(a.count, b.count);
    }
  }

  predicate EndsWithRunsSuffix(text: string) {
    |text| >= |RunsRemainingSuffix| && text[|text| - |RunsRemainingSuffix|..] == RunsRemainingSuffix
  }

  lemma FixedCaptionsDiffer()
    ensures !EndsWithRunsSuffix(UpgradeText) && !EndsWithRunsSuffix(LimitReachedText)
    ensures UpgradeText != LimitReachedText
  {
    var n := |RunsRemainingSuffix|;
    assert UpgradeText[|UpgradeText| - n..][0] != RunsRemainingSuffix[0];
    assert LimitReachedText[|LimitReachedText| - n..][0] != RunsRemainingSuffix[0];
    assert UpgradeText[0] != LimitReachedText[0];
  }

  lemma CountCaptionInjective(i: int, j: int)
    requires LabelText(RunsRemaining(i)) == LabelText(RunsRemaining(j))
    ensures i == j
  {
    var ti, tj := LabelText(RunsRemaining(i)), LabelText(RunsRemaining(j));
    var n := |RunsRemainingSuffix|;
    assert IntToDecimal(i) == ti[..|ti| - n];
    assert IntToDecimal(j) == tj[..|tj| - n];
    IntToDecimalInjective(i, j);
  }
}

=== FILE: wrappers.dfy ===
/** Optional values, standing in for JavaScript's `undefined` and Python's missing key. */
module Wrappers {

  datatype Option<+T> = None | Some(value: T) {

    /** The value, or `default` when there is none (JavaScript's `x ?? d`, Python's `get(k, d)`). */
    function GetOr(default: T): T {
      match this
      case Some(v) => v
      case None => default
    }
  }
}
